=== FILE: README.md ===
# Registry search for an installed application

A Dafny model of `search_registry_for_application.py`. The script looks up
installed Windows applications by a guess at their display name. It lists
the child keys under the `Uninstall` key of the local-machine hive. For
each child key, it looks at every value. A value counts as a hit when its
lowered, stripped name is `displayname` and its data matches the guess
fuzzily. For each hit, the script returns the key's values flattened into
a name-to-data dictionary.

The model has five modules:

- `Text` (`text.dfy`) covers the ASCII behaviour of `str.lower()`,
  `str.strip()` and the substring test `t in s`. It also defines the
  normaliser `x.lower().strip()`.
- `Matching` (`fuzzy.dfy`) holds `fuzzy_match` and its algebra.
- `Registry` (`registry.dfy`) is the in-memory stand-in for the hive:
  - a `Hive` maps each openable key path to its child keys, in
    enumeration order;
  - an `AppKey` carries its values, in enumeration order.

  The module also holds `get_key_details`, as the pure `KeyDetails` and
  as the loop `GetKeyDetails`.
- `HiveSearch` (`search.dfy`) models `search_hive`.
  - `Collect` states the nested loops with the value test left open.
  - `SearchHive` fixes the test to the condition on line 76.
  - The methods `MatchKey` and `WalkHive` are the loops themselves.

  `Visits`, `HitVisits` and `RecordsOf` form an independent reference
  definition. They give the walk over every (child key, value) pair,
  filtered by the test, with one record per surviving pair.
- `ApplicationQuery` (`query.dfy`) models
  `find_application_display_name_by_name`.
  - `SearchPaths` searches a list of paths in order. A path that cannot
    be opened aborts the query, because `OpenKey` raises.
  - `FindApplicationDisplayNameByName` applies the `[:1]` slice of
    line 44.
  - `FindApplicationInBothPaths` searches both uninstall paths, as the
    docstring describes.

An empty guess does not return every child key. A guess that normalises
to the empty string matches every data string, but line 76 still requires
a value whose lowered, stripped name is `displayname`.
`HiveSearch.EmptyGuessFindsEveryDisplayName` states this.

`SearchExamples` (`examples.dfy`) works through small fixed hives. It
includes the input that separates the query as written from the
two-path version.

## Model

| member | source | states |
|---|---|---|
| Text.Lower | search_registry_for_application.py:21-22 | ASCII `str.lower()`: the length is kept and no upper-case letter remains; the character mapping itself is stated by `LowerMeaning` |
| Text.LowerMeaning | search_registry_for_application.py:21-22 | at every index, an upper-case ASCII letter becomes its lower-case partner (32 code points later) and every other character is unchanged |
| Text.Normalize | search_registry_for_application.py:21-22 | the normaliser `x.lower().strip()`; it has no contract of its own, and its meaning is stated by `NormalizeMeaning` and `NormalizeIdempotent` |
| Text.LowerIdempotent | search_registry_for_application.py:21-22 | lowering twice is lowering once |
| Text.Strip | search_registry_for_application.py:21-22 | the result is the slice `s[i..j]` such that everything outside it is whitespace and it neither starts nor ends with whitespace |
| Text.StripIdempotent | search_registry_for_application.py:21-22 | stripping twice is stripping once |
| Text.StripLowerCommute | search_registry_for_application.py:21-22 | `s.lower().strip() == s.strip().lower()` |
| Text.NormalizeMeaning | search_registry_for_application.py:21-22 | the normal form is the stripped string in lower case, with no upper-case letter and no whitespace at either end |
| Text.NormalizeOfNormalForm | search_registry_for_application.py:21-22 | a lower-case string without surrounding whitespace is its own normal form |
| Text.NormalizeIdempotent | search_registry_for_application.py:21-22 | normalising a normal form changes nothing |
| Text.Contains | search_registry_for_application.py:23 | Python's `t in s` on strings; it has no contract of its own, and its meaning is stated by `ContainsIffSubstring` |
| Text.ContainsIffSubstring | search_registry_for_application.py:23 | the scan behind `t in s` succeeds exactly when `t` occurs at some index of `s` |
| Matching.FuzzyMatch | search_registry_for_application.py:17-23 | `fuzzy_match`; it has no contract of its own, and its meaning is stated by `FuzzyMatchMeaning` |
| Matching.FuzzyMatchMeaning | search_registry_for_application.py:17-23 | `fuzzy_match(a, b)` holds exactly when one normal form is a contiguous slice of the other |
| Matching.FuzzyMatchSymmetric | search_registry_for_application.py:17-23 | swapping the arguments does not change the answer |
| Matching.FuzzyMatchReflexive | search_registry_for_application.py:17-23 | every string matches itself |
| Matching.FuzzyMatchEmpty | search_registry_for_application.py:17-23 | a side that normalises to the empty string matches everything |
| Matching.FuzzyMatchIgnoresCaseAndPadding | search_registry_for_application.py:17-23 | replacing either argument by its normal form leaves the answer unchanged |
| Registry.KeyDetails | search_registry_for_application.py:90-96 | `get_key_details` as a function; it has no contract of its own, and its meaning is stated by `KeyDetailsContents` and `KeyDetailsUnique` |
| Registry.KeyDetailsContents | search_registry_for_application.py:90-96 | the dictionary's keys are exactly the value names, and each name maps to the data of its last occurrence |
| Registry.KeyDetailsUnique | search_registry_for_application.py:90-96 | any map with those keys and last-occurrence data is the dictionary |
| Registry.GetKeyDetails | search_registry_for_application.py:90-96 | the loop builds the same dictionary, with exactly the value names as keys and last-occurrence data |
| HiveSearch.IsHit | search_registry_for_application.py:76 | the value test; it has no contract of its own, and `SearchHive` and `EmptyGuessFindsEveryDisplayName` state what it selects |
| HiveSearch.KeyMatches | search_registry_for_application.py:72-77 | every record one child key contributes is that key's flattening, and it contributes at least one record exactly when some value passes the test |
| HiveSearch.KeyMatchesAreFilteredVisits | search_registry_for_application.py:72-77 | a key's matches are one flattening per passing value, in value order |
| HiveSearch.Collect | search_registry_for_application.py:69-77 | a record is in the result exactly when it is the flattening of a child key with a passing value |
| HiveSearch.CollectOfOneKey | search_registry_for_application.py:69-77 | a subtree with a single child key yields exactly that key's matches |
| HiveSearch.SearchHive | search_registry_for_application.py:62-78 | a record is returned exactly when it is the flattening of a child key with a value named DisplayName (up to case and padding) whose data fuzzily matches the guess |
| HiveSearch.MatchKey | search_registry_for_application.py:70-77 | the inner loop yields one flattening of the key per passing value, in value order |
| HiveSearch.WalkHive | search_registry_for_application.py:62-78 | the nested loops compute `SearchHive` |
| HiveSearch.SearchHiveAppend | search_registry_for_application.py:69-77 | searching two runs of child keys gives the first run's records followed by the second run's |
| HiveSearch.CollectIsFilteredWalk | search_registry_for_application.py:69-77 | for any value test, the nested loops equal the walk over every (child key, value) pair in enumeration order, keeping the pairs that pass, with one key flattening per kept pair |
| HiveSearch.SearchHiveIsFilteredWalk | search_registry_for_application.py:69-77 | the result is the walk over every (child key, value) pair in enumeration order, filtered by the line-76 condition, with one record per hit; so the count equals the number of hits, and a key with several hits appears several times |
| HiveSearch.EmptyGuessFindsEveryDisplayName | search_registry_for_application.py:76 | with a guess that normalises to empty, a record is returned exactly when it flattens a child key that has a DisplayName value |
| ApplicationQuery.SearchPaths | search_registry_for_application.py:42-47 | searching a list of paths succeeds exactly when every path can be opened; otherwise it fails on the first missing path; on success a record is returned exactly when one path's search returns it |
| ApplicationQuery.SearchOnePath | search_registry_for_application.py:44-45 | searching one path gives that path's `search_hive` records, or fails when the path cannot be opened |
| ApplicationQuery.SearchPathsAppend | search_registry_for_application.py:42-47 | when every path can be opened, searching `p + q` gives the records of `p` followed by those of `q`, in path order and with each path's multiplicities |
| ApplicationQuery.FindApplicationDisplayNameByName | search_registry_for_application.py:37-47 | the query fails when the native uninstall path is missing, and otherwise equals `search_hive` on that path alone |
| ApplicationQuery.FindApplicationIgnoresSecondPath | search_registry_for_application.py:44 | two hives that agree on the native path give the same answer, whatever the 32-bit path holds |
| ApplicationQuery.MissingSecondPathFailsBothPaths | search_registry_for_application.py:37-47 | on a hive without the 32-bit uninstall path, the query as written succeeds and the two-path query fails on that path |
| ApplicationQuery.FindApplicationInBothPaths | search_registry_for_application.py:26-40 | the two-path query fails on the first missing path, and otherwise returns the native path's records followed by the 32-bit path's |
| ApplicationQuery.BothPathsExtendFirstPath | search_registry_for_application.py:26-47 | when both paths exist, the two-path query returns every record the one-path query returns and every record of the 32-bit path |
| SearchExamples.NotepadGuessFindsNotepad | search_registry_for_application.py:62-78 | searching Notepad++ and VLC for "notepad" returns only the Notepad++ record |
| SearchExamples.UnknownGuessFindsNothing | search_registry_for_application.py:62-78 | on the Notepad++/VLC fixture, the guess "zzz-nonexistent" returns nothing: its normal form neither occurs in nor contains either DisplayName's normal form |
| SearchExamples.TwoDisplayNamesGiveTwoRecords | search_registry_for_application.py:72-77 | a key with two matching values named "DisplayName" and " displayname " is returned twice |
| SearchExamples.PaddedUpperCaseMatches | search_registry_for_application.py:17-23 | `fuzzy_match(" Foo ", "foo")` holds |
| SearchExamples.SliceSkipsSecondPath | search_registry_for_application.py:44 | a hive with VLC only under the 32-bit path gives an empty answer |
| SearchExamples.BothPathsFindVlc | search_registry_for_application.py:26-29 | on the same hive, the two-path query finds VLC |

## Left out

- Registry I/O is not modelled: `ConnectRegistry`, `OpenKey`, `QueryInfoKey`, `EnumKey`, `EnumValue` and the handles. A `Hive` value stands for the state the calls read. The enumeration order is the order of the sequences.
- A child key that fails to open (line 70) is not modelled. Every listed child key is taken to be readable.
- The value-type tag that `EnumValue` returns is dropped, along with non-string data. Each value's data is a string.
- `Text.Lower` and `Text.Strip` cover only ASCII. Python's full Unicode case mapping, and its non-ASCII whitespace, are not modelled. Non-ASCII characters pass through unchanged and are never stripped.
- `get_args`, `main`, the JSON output and the command line are not modelled. They are I/O around the query.

## Findings

| source | as written | input that shows it | evidently intended | confidence | as-written member | corrected member |
|---|---|---|---|---|---|---|
| search_registry_for_application.py:44 | `for sub_key in uninstall_hives[:1]` searches only the native path | a hive whose native uninstall path is empty and whose 32-bit (`WOW6432Node`) path holds VLC; the guess "vlc" returns `[]` | search both uninstall paths, as the docstring at lines 27-29 says | high, not executed | SearchExamples.SliceSkipsSecondPath | ApplicationQuery.FindApplicationInBothPaths |

The correction is not a strict improvement. On a host without the
`WOW6432Node` path, such as 32-bit Windows, the two-path query fails when
opening that path, while the query as written succeeds
(`ApplicationQuery.MissingSecondPathFailsBothPaths`). The slice may have
been a workaround for such hosts.

=== FILE: examples.dfy ===
/** Worked instances of the search on small fixed hives: the fuzzy match on
    concrete names, a two-application subtree, a key with two DisplayName
    values, and a hive whose only match sits under the second uninstall
    path. */
module SearchExamples {
  import opened Text
  import opened Matching
  import opened Registry
  import opened HiveSearch
  import opened ApplicationQuery

  /** A name whose lowered form has no surrounding whitespace normalises to
      that lowered form. */
  lemma NormalizeUnpadded(s: string, l: string)
    requires Lower(s) == l
    requires |l| > 0 && !IsSpace(l[0]) && !IsSpace(l[|l| - 1])
    ensures Normalize(s) == l
  {
    StripOfTrimmed(l);
  }

  /** Two names match when the normal form of one starts the other's. */
  lemma MatchByPrefix(a: string, b: string)
    requires IsPrefix(Normalize(a), Normalize(b))
    ensures FuzzyMatch(a, b)
  {
  }

  /** Two names do not match when each normal form holds a character the
      other lacks. */
  lemma NoMatchByCharacters(a: string, b: string, na: string, nb: string, c: char, d: char)
    requires Normalize(a) == na && Normalize(b) == nb
    requires c in na && c !in nb
    requires d in nb && d !in na
    ensures !FuzzyMatch(a, b)
  {
    FuzzyMatchMeaning(a, b);
    MissingCharNotSubstring(na, nb, c);
    MissingCharNotSubstring(nb, na, d);
  }

  /** `fuzzy_match(" Foo ", "foo")` holds. */
  lemma PaddedUpperCaseMatches()
    ensures FuzzyMatch(" Foo ", "foo")
  {
    assert Lower(" Foo ") == " foo ";
    assert StrippedAt(" foo ", 1, 4);
    NormalizeUnpadded("foo", "foo");
    MatchByPrefix(" Foo ", "foo");
  }

  const DisplayName := "DisplayName"
  const NotepadName := Attribute(DisplayName, "Notepad++")
  const VlcName := Attribute(DisplayName, "VLC media player")
  const Notepad := AppKey("Notepad++", [NotepadName, Attribute("Version", "8.0")])
  const Vlc := AppKey("VLC", [VlcName, Attribute("Version", "3.0")])
  const Apps: Subtree := [Notepad, Vlc]

  lemma DisplayNameNormalForm()
    ensures Normalize(DisplayName) == "displayname"
  {
    assert Lower(DisplayName) == "displayname";
    NormalizeUnpadded(DisplayName, "displayname");
  }

  /** A value named "Version" is never a hit, whatever the guess. */
  lemma VersionIsNoHit(guess: string, value: string)
    ensures !HitTest(guess)(Attribute("Version", value))
  {
    assert Lower("Version") == "version";
    NormalizeUnpadded("Version", "version");
  }

  lemma NotepadNormalForm()
    ensures Normalize("Notepad++") == "notepad++"
  {
    assert Lower("Notepad++") == "notepad++";
    NormalizeUnpadded("Notepad++", "notepad++");
  }

  lemma VlcNormalForm()
    ensures Normalize("VLC media player") == "vlc media player"
  {
    assert Lower("VLC media player") == "vlc media player";
    NormalizeUnpadded("VLC media player", "vlc media player");
  }

  /** A value whose name is not "DisplayName" up to case and padding, or
      whose data does not match the guess, is no hit. */
  lemma NoHitWithoutMatch(guess: string, a: Attribute)
    requires !FuzzyMatch(guess, a.value)
    ensures !HitTest(guess)(a)
  {
  }

  lemma NotepadGuessHitsNotepad()
    ensures HitTest("notepad")(NotepadName)
  {
    DisplayNameNormalForm();
    NormalizeOfNormalForm("notepad");
    NotepadNormalForm();
    MatchByPrefix("notepad", "Notepad++");
  }

  lemma NotepadVlcCharacters()
    ensures 'n' in "notepad" && 'n' !in "vlc media player"
    ensures 'v' in "vlc media player" && 'v' !in "notepad"
  {
  }

  lemma NotepadGuessMissesVlc()
    ensures !FuzzyMatch("notepad", "VLC media player")
  {
    NormalizeOfNormalForm("notepad");
    VlcNormalForm();
    NotepadVlcCharacters();
    NoMatchByCharacters("notepad", "VLC media player", "notepad", "vlc media player", 'n', 'v');
  }

  lemma VlcGuessHitsVlc()
    ensures HitTest("vlc")(VlcName)
  {
    DisplayNameNormalForm();
    NormalizeOfNormalForm("vlc");
    VlcNormalForm();
    MatchByPrefix("vlc", "VLC media player");
  }

  lemma UnknownCharacters()
    ensures 'z' in "zzz-nonexistent" && 'z' !in "notepad++"
    ensures '+' in "notepad++" && '+' !in "zzz-nonexistent"
  {
  }

  lemma UnknownVlcCharacters()
    ensures 'z' in "zzz-nonexistent" && 'z' !in "vlc media player"
    ensures 'v' in "vlc media player" && 'v' !in "zzz-nonexistent"
  {
  }

  lemma UnknownGuessMissesNotepad()
    ensures !FuzzyMatch("zzz-nonexistent", "Notepad++")
  {
    NormalizeOfNormalForm("zzz-nonexistent");
    NotepadNormalForm();
    UnknownCharacters();
    NoMatchByCharacters("zzz-nonexistent", "Notepad++", "zzz-nonexistent", "notepad++", 'z', '+');
  }

  lemma UnknownGuessMissesVlc()
    ensures !FuzzyMatch("zzz-nonexistent", "VLC media player")
  {
    NormalizeOfNormalForm("zzz-nonexistent");
    VlcNormalForm();
    UnknownVlcCharacters();
    NoMatchByCharacters("zzz-nonexistent", "VLC media player", "zzz-nonexistent", "vlc media player", 'z', 'v');
  }

  /** A key with two values, the second of which is no hit, contributes its
      flattening once when the first value is a hit and nothing otherwise. */
  lemma KeyMatchesOfTwoValues(hit: Attribute -> bool, key: AppKey)
    requires |key.attributes| == 2 && !hit(key.attributes[1])
    ensures KeyMatches(hit, key, 2) == if hit(key.attributes[0]) then [KeyDetails(key.attributes)] else []
  {
    KeyMatchesStep(hit, key, 0);
    KeyMatchesStep(hit, key, 1);
  }

  lemma CollectOfTwoKeys(hit: Attribute -> bool, a: AppKey, b: AppKey)
    ensures Collect(hit, [a, b]) ==
              KeyMatches(hit, a, |a.attributes|) + KeyMatches(hit, b, |b.attributes|)
  {
    assert [a, b][..1] == [a];
    CollectOfOneKey(hit, a);
  }

  /** Searching the two-application subtree for "notepad" yields exactly
      the Notepad++ record. */
  lemma NotepadGuessFindsNotepad()
    ensures SearchHive("notepad", Apps) == [KeyDetails(Notepad.attributes)]
  {
    var hit := HitTest("notepad");
    NotepadGuessHitsNotepad();
    NotepadGuessMissesVlc();
    NoHitWithoutMatch("notepad", VlcName);
    VersionIsNoHit("notepad", "8.0");
    VersionIsNoHit("notepad", "3.0");
    CollectOfTwoKeys(hit, Notepad, Vlc);
    KeyMatchesOfTwoValues(hit, Notepad);
    KeyMatchesOfTwoValues(hit, Vlc);
  }

  /** The record returned for Notepad++ carries its DisplayName. */
  lemma NotepadRecordHasDisplayName()
    ensures DisplayName in KeyDetails(Notepad.attributes)
    ensures KeyDetails(Notepad.attributes)[DisplayName] == "Notepad++"
  {
    KeyDetailsContents(Notepad.attributes);
    assert Notepad.attributes[0].name == DisplayName;
    assert IsLastOccurrence(Notepad.attributes, 0);
  }

  /** A guess that occurs in no name finds nothing. */
  lemma UnknownGuessFindsNothing()
    ensures SearchHive("zzz-nonexistent", Apps) == []
  {
    var hit := HitTest("zzz-nonexistent");
    UnknownGuessMissesNotepad();
    NoHitWithoutMatch("zzz-nonexistent", NotepadName);
    UnknownGuessMissesVlc();
    NoHitWithoutMatch("zzz-nonexistent", VlcName);
    VersionIsNoHit("zzz-nonexistent", "8.0");
    VersionIsNoHit("zzz-nonexistent", "3.0");
    CollectOfTwoKeys(hit, Notepad, Vlc);
    KeyMatchesOfTwoValues(hit, Notepad);
    KeyMatchesOfTwoValues(hit, Vlc);
  }

  /** A key whose values are named "DisplayName" and " displayname ". */
  const Dup := AppKey("Dup", [Attribute(DisplayName, "VLC"), Attribute(" displayname ", "vlc")])

  /** Padding around the value name is stripped before the comparison. */
  lemma PaddedDisplayNameNormalForm()
    ensures Normalize(" displayname ") == "displayname"
  {
    LowerOfLowerCase(" displayname ");
    assert StrippedAt(" displayname ", 1, 12);
  }

  lemma VlcGuessHitsFirstDupValue()
    ensures HitTest("vlc")(Dup.attributes[0])
  {
    DisplayNameNormalForm();
    NormalizeOfNormalForm("vlc");
    assert Lower("VLC") == "vlc";
    NormalizeUnpadded("VLC", "vlc");
    MatchByPrefix("vlc", "VLC");
  }

  lemma VlcGuessHitsSecondDupValue()
    ensures HitTest("vlc")(Dup.attributes[1])
  {
    PaddedDisplayNameNormalForm();
    FuzzyMatchReflexive("vlc");
  }

  /** A two-valued key both of whose values are hits contributes its
      flattening twice. */
  lemma KeyMatchesOfTwoHits(hit: Attribute -> bool, key: AppKey)
    requires |key.attributes| == 2 && hit(key.attributes[0]) && hit(key.attributes[1])
    ensures KeyMatches(hit, key, 2) == [KeyDetails(key.attributes), KeyDetails(key.attributes)]
  {
    KeyMatchesStep(hit, key, 0);
    KeyMatchesStep(hit, key, 1);
  }

  /** Both values of `Dup` pass the DisplayName test, so the key is
      returned twice. */
  lemma TwoDisplayNamesGiveTwoRecords()
    ensures SearchHive("vlc", [Dup]) == [KeyDetails(Dup.attributes), KeyDetails(Dup.attributes)]
  {
    VlcGuessHitsFirstDupValue();
    VlcGuessHitsSecondDupValue();
    KeyMatchesOfTwoHits(HitTest("vlc"), Dup);
    CollectOfOneKey(HitTest("vlc"), Dup);
  }

  /** A hive whose native uninstall path is empty and whose 32-bit path
      holds VLC. */
  const SplitHive := Hive(map[UninstallPaths[0] := [], UninstallPaths[1] := [Vlc]])

  lemma VlcGuessFindsVlc()
    ensures SearchHive("vlc", [Vlc]) == [KeyDetails(Vlc.attributes)]
  {
    VlcGuessHitsVlc();
    VersionIsNoHit("vlc", "3.0");
    KeyMatchesOfTwoValues(HitTest("vlc"), Vlc);
    CollectOfOneKey(HitTest("vlc"), Vlc);
  }

  lemma SplitHiveSubtrees()
    ensures UninstallPaths[0] in SplitHive.subtrees && SplitHive.subtrees[UninstallPaths[0]] == []
    ensures UninstallPaths[1] in SplitHive.subtrees && SplitHive.subtrees[UninstallPaths[1]] == [Vlc]
  {
    assert UninstallPaths[0] != UninstallPaths[1];
  }

  /** The query as written looks only under the native path and misses
      VLC. */
  lemma SliceSkipsSecondPath()
    ensures FindApplicationDisplayNameByName("vlc", SplitHive) == Success([])
  {
    SplitHiveSubtrees();
    assert SearchHive("vlc", []) == [];
  }

  /** When the native path is present but empty, the corrected query
      returns what the 32-bit path yields. */
  lemma BothPathsWithEmptyFirst(guess: string, hive: Hive)
    requires UninstallPaths[0] in hive.subtrees && hive.subtrees[UninstallPaths[0]] == []
    requires UninstallPaths[1] in hive.subtrees
    ensures FindApplicationInBothPaths(guess, hive) == Success(SearchHive(guess, hive.subtrees[UninstallPaths[1]]))
  {
    var second := SearchHive(guess, hive.subtrees[UninstallPaths[1]]);
    assert SearchHive(guess, []) == [];
    assert [] + second == second;
  }

  /** Searching both uninstall paths finds VLC. */
  lemma BothPathsFindVlc()
    ensures FindApplicationInBothPaths("vlc", SplitHive) == Success([KeyDetails(Vlc.attributes)])
  {
    SplitHiveSubtrees();
    BothPathsWithEmptyFirst("vlc", SplitHive);
    VlcGuessFindsVlc();
  }
}

=== FILE: fuzzy.dfy ===
/** The fuzzy comparison of an application name guess with a registry
    DisplayName (search_registry_for_application.py, `fuzzy_match`). */
module Matching {
  import opened Text

  /** `fuzzy_match(a, b)` (lines 17-23): after lowering and stripping both
      sides, one of them occurs in the other. */
  predicate FuzzyMatch(a: string, b: string) {
    var a' := Normalize(a);
    var b' := Normalize(b);
    Contains(b', a') || Contains(a', b')
  }

  /** The match holds exactly when one normal form is a contiguous slice of
      the other. */
  lemma FuzzyMatchMeaning(a: string, b: string)
    ensures FuzzyMatch(a, b) <==> IsSubstring(Normalize(a), Normalize(b)) || IsSubstring(Normalize(b), Normalize(a))
  {
    ContainsIffSubstring(Normalize(b), Normalize(a));
    ContainsIffSubstring(Normalize(a), Normalize(b));
  }

  lemma FuzzyMatchSymmetric(a: string, b: string)
    ensures FuzzyMatch(a, b) == FuzzyMatch(b, a)
  {
  }

  lemma FuzzyMatchReflexive(a: string)
    ensures FuzzyMatch(a, a)
  {
  }

  /** A side that normalises to the empty string occurs in everything. */
  lemma FuzzyMatchEmpty(a: string, b: string)
    requires Normalize(a) == [] || Normalize(b) == []
    ensures FuzzyMatch(a, b)
  {
  }

  /** Case and surrounding whitespace of either argument do not matter:
      replacing an argument by its normal form leaves the answer alone. */
  lemma FuzzyMatchIgnoresCaseAndPadding(a: string, b: string)
    ensures FuzzyMatch(Normalize(a), b) == FuzzyMatch(a, b)
    ensures FuzzyMatch(a, Normalize(b)) == FuzzyMatch(a, b)
  {
    NormalizeIdempotent(a);
    NormalizeIdempotent(b);
  }
}

=== FILE: query.dfy ===
/** The top-level query `find_application_display_name_by_name`: search
    the configured uninstall paths of the local-machine hive in order and
    concatenate what each yields. */
module ApplicationQuery {
  import opened Registry
  import opened HiveSearch

  /** The uninstall locations of lines 37-40: the native one and the one
      for 32-bit applications on 64-bit Windows. */
  const UninstallPaths: seq<string> := [
    "SOFTWARE\\Microsoft\\Windows\\CurrentVersion\\Uninstall",
    "SOFTWARE\\WOW6432Node\\Microsoft\\Windows\\CurrentVersion\\Uninstall"
  ]

  /** Opening a key path that the hive does not hold raises, which aborts
      the whole query. */
  datatype QueryError = KeyNotFound(path: string)

  datatype Result<T> = Success(value: T) | Failure(error: QueryError)

  /** Every path of `paths` can be opened. */
  ghost predicate AllPresent(hive: Hive, paths: seq<string>) {
    forall i :: 0 <= i < |paths| ==> paths[i] in hive.subtrees
  }

  /** Lines 44-45 over a list of paths: each path is searched in order and
      its records appended; the first path that cannot be opened aborts the
      query and nothing found so far is returned. */
  function SearchPaths(guess: string, hive: Hive, paths: seq<string>): (r: Result<seq<Record>>)
    ensures r.Success? <==> AllPresent(hive, paths)
    ensures r.Failure? ==>
              exists i :: 0 <= i < |paths| && paths[i] == r.error.path && paths[i] !in hive.subtrees &&
                AllPresent(hive, paths[..i])
    ensures r.Success? ==>
              forall d :: d in r.value <==>
                exists i :: 0 <= i < |paths| && paths[i] in hive.subtrees &&
                  d in SearchHive(guess, hive.subtrees[paths[i]])
    decreases |paths|
  {
    if |paths| == 0 then Success([])
    else if paths[0] !in hive.subtrees then
      assert AllPresent(hive, paths[..0]);
      Failure(KeyNotFound(paths[0]))
    else
      var rest := SearchPaths(guess, hive, paths[1..]);
      SearchPathsStep(guess, hive, paths, rest);
      match rest
      case Failure(e) => Failure(e)
      case Success(later) => Success(SearchHive(guess, hive.subtrees[paths[0]]) + later)
  }

  lemma SearchPathsStep(guess: string, hive: Hive, paths: seq<string>, rest: Result<seq<Record>>)
    requires |paths| > 0 && paths[0] in hive.subtrees
    requires rest.Success? <==> AllPresent(hive, paths[1..])
    requires rest.Failure? ==>
               exists i :: 0 <= i < |paths[1..]| && paths[1..][i] == rest.error.path &&
                 paths[1..][i] !in hive.subtrees && AllPresent(hive, paths[1..][..i])
    requires rest.Success? ==>
               forall d :: d in rest.value <==>
                 exists i :: 0 <= i < |paths[1..]| && paths[1..][i] in hive.subtrees &&
                   d in SearchHive(guess, hive.subtrees[paths[1..][i]])
    ensures rest.Success? <==> AllPresent(hive, paths)
    ensures rest.Failure? ==>
              exists i :: 0 <= i < |paths| && paths[i] == rest.error.path && paths[i] !in hive.subtrees &&
                AllPresent(hive, paths[..i])
    ensures rest.Success? ==>
              forall d :: d in SearchHive(guess, hive.subtrees[paths[0]]) + rest.value <==>
                exists i :: 0 <= i < |paths| && paths[i] in hive.subtrees &&
                  d in SearchHive(guess, hive.subtrees[paths[i]])
  {
    var tail := paths[1..];
    assert forall i :: 0 <= i < |tail| ==> tail[i] == paths[i + 1];
    if rest.Failure? {
      var i :| 0 <= i < |tail| && tail[i] == rest.error.path && tail[i] !in hive.subtrees &&
               AllPresent(hive, tail[..i]);
      assert paths[i + 1] == rest.error.path;
      assert AllPresent(hive, paths[..i + 1]) by {
        assert forall k :: 0 < k <= i ==> paths[k] == tail[..i][k - 1];
      }
    } else {
      var first := SearchHive(guess, hive.subtrees[paths[0]]);
      forall d | d in first + rest.value
        ensures exists i :: 0 <= i < |paths| && paths[i] in hive.subtrees &&
                  d in SearchHive(guess, hive.subtrees[paths[i]])
      {
        if d !in first {
          var i :| 0 <= i < |tail| && tail[i] in hive.subtrees && d in SearchHive(guess, hive.subtrees[tail[i]]);
          assert paths[i + 1] == tail[i];
        }
      }
      forall d | exists i :: 0 <= i < |paths| && paths[i] in hive.subtrees &&
                   d in SearchHive(guess, hive.subtrees[paths[i]])
        ensures d in first + rest.value
      {
        var i :| 0 <= i < |paths| && paths[i] in hive.subtrees && d in SearchHive(guess, hive.subtrees[paths[i]]);
        if i > 0 {
          assert tail[i - 1] == paths[i];
        }
      }
    }
  }

  /** Searching one path: its records, or the failure to open it. */
  lemma SearchOnePath(guess: string, hive: Hive, p: string)
    ensures SearchPaths(guess, hive, [p]) ==
              if p in hive.subtrees then Success(SearchHive(guess, hive.subtrees[p]))
              else Failure(KeyNotFound(p))
  {
    assert [p][1..] == [];
    assert SearchPaths(guess, hive, []) == Success([]);
    if p in hive.subtrees {
      var found := SearchHive(guess, hive.subtrees[p]);
      assert found + [] == found;
    }
  }

  /** `matches +=` keeps the paths' order: when every path can be opened,
      searching `p + q` yields the records of `p` followed by those of `q`,
      each path's records as often as its search returns them. */
  lemma {:induction false} SearchPathsAppend(guess: string, hive: Hive, p: seq<string>, q: seq<string>)
    requires AllPresent(hive, p + q)
    ensures SearchPaths(guess, hive, p + q).Success?
    ensures SearchPaths(guess, hive, p).Success? && SearchPaths(guess, hive, q).Success?
    ensures SearchPaths(guess, hive, p + q).value ==
              SearchPaths(guess, hive, p).value + SearchPaths(guess, hive, q).value
    decreases |p|
  {
    if |p| == 0 {
      assert p + q == q;
      assert [] + SearchPaths(guess, hive, q).value == SearchPaths(guess, hive, q).value;
    } else {
      assert (p + q)[0] == p[0];
      assert (p + q)[1..] == p[1..] + q;
      assert AllPresent(hive, p[1..] + q) by {
        assert forall i :: 0 <= i < |p[1..] + q| ==> (p[1..] + q)[i] == (p + q)[i + 1];
      }
      assert AllPresent(hive, p[1..]) by {
        assert forall i :: 0 <= i < |p[1..]| ==> p[1..][i] == (p + q)[i + 1];
      }
      assert AllPresent(hive, q) by {
        assert forall i :: 0 <= i < |q| ==> q[i] == (p + q)[|p| + i];
      }
      SearchPathsAppend(guess, hive, p[1..], q);
    }
  }

  /** `find_application_display_name_by_name` as written: the slice
      `uninstall_hives[:1]` keeps only the first path, so the result is
      `search_hive` on that path alone. */
  function FindApplicationDisplayNameByName(guess: string, hive: Hive): (r: Result<seq<Record>>)
    ensures r == if UninstallPaths[0] in hive.subtrees
                 then Success(SearchHive(guess, hive.subtrees[UninstallPaths[0]]))
                 else Failure(KeyNotFound(UninstallPaths[0]))
  {
    var paths := UninstallPaths[..1];
    var p := UninstallPaths[0];
    assert paths == [p] && paths[1..] == [];
    assert SearchPaths(guess, hive, []) == Success([]);
    assert p in hive.subtrees ==> SearchHive(guess, hive.subtrees[p]) + [] == SearchHive(guess, hive.subtrees[p]);
    SearchPaths(guess, hive, paths)
  }

  /** The query depends only on the first uninstall path: two hives that
      agree there give the same answer, whatever the second path holds. */
  lemma FindApplicationIgnoresSecondPath(guess: string, h1: Hive, h2: Hive)
    requires UninstallPaths[0] in h1.subtrees <==> UninstallPaths[0] in h2.subtrees
    requires UninstallPaths[0] in h1.subtrees ==>
               h1.subtrees[UninstallPaths[0]] == h2.subtrees[UninstallPaths[0]]
    ensures FindApplicationDisplayNameByName(guess, h1) == FindApplicationDisplayNameByName(guess, h2)
  {
  }

  /** On a host without the 32-bit uninstall path the query as written
      succeeds, while the two-path query fails on opening that path. */
  lemma MissingSecondPathFailsBothPaths(guess: string, hive: Hive)
    requires UninstallPaths[0] in hive.subtrees && UninstallPaths[1] !in hive.subtrees
    ensures FindApplicationDisplayNameByName(guess, hive).Success?
    ensures FindApplicationInBothPaths(guess, hive) == Failure(KeyNotFound(UninstallPaths[1]))
  {
  }

  /** The query as its documentation describes it (lines 27-29): both
      uninstall paths are searched, the native one first. */
  function FindApplicationInBothPaths(guess: string, hive: Hive): (r: Result<seq<Record>>)
    ensures r == if UninstallPaths[0] !in hive.subtrees then Failure(KeyNotFound(UninstallPaths[0]))
                 else if UninstallPaths[1] !in hive.subtrees then Failure(KeyNotFound(UninstallPaths[1]))
                 else Success(SearchHive(guess, hive.subtrees[UninstallPaths[0]]) +
                              SearchHive(guess, hive.subtrees[UninstallPaths[1]]))
  {
    var paths := UninstallPaths;
    var p, q := UninstallPaths[0], UninstallPaths[1];
    assert paths[1..] == [q] && paths[1..][1..] == [];
    assert SearchPaths(guess, hive, []) == Success([]);
    assert q in hive.subtrees ==> SearchHive(guess, hive.subtrees[q]) + [] == SearchHive(guess, hive.subtrees[q]);
    SearchPaths(guess, hive, paths)
  }

  /** Whenever both paths can be opened, the corrected query finds every
      record the query as written finds, and every record either path
      yields. */
  lemma BothPathsExtendFirstPath(guess: string, hive: Hive)
    requires UninstallPaths[0] in hive.subtrees && UninstallPaths[1] in hive.subtrees
    ensures FindApplicationInBothPaths(guess, hive).Success?
    ensures forall d :: d in FindApplicationDisplayNameByName(guess, hive).value ==>
              d in FindApplicationInBothPaths(guess, hive).value
    ensures forall d :: d in SearchHive(guess, hive.subtrees[UninstallPaths[1]]) ==>
              d in FindApplicationInBothPaths(guess, hive).value
  {
  }
}

=== FILE: registry.dfy ===
/** The in-memory stand-in for the part of the Windows registry the search
    reads, and the attribute flattener `get_key_details`. */
module Registry {

  /** One registry value of an application key: its name and its data.
      The value-type tag the registry also reports is dropped, and the data
      is taken to be a string. */
  datatype Attribute = Attribute(name: string, value: string)

  /** One child key under an uninstall path: its key name and its values in
      the registry's enumeration order. */
  datatype AppKey = AppKey(name: string, attributes: seq<Attribute>)

  /** The child keys under one uninstall path, in enumeration order. */
  type Subtree = seq<AppKey>

  /** The local-machine hive: the subtree found under each key path that
      can be opened. */
  datatype Hive = Hive(subtrees: map<string, Subtree>)

  /** The flattened attributes of one application key: name to value. */
  type Record = map<string, string>

  /** The set of names among `attrs`. */
  ghost function Names(attrs: seq<Attribute>): set<string> {
    set i | 0 <= i < |attrs| :: attrs[i].name
  }

  /** No attribute after index `i` carries the same name as `attrs[i]`. */
  ghost predicate IsLastOccurrence(attrs: seq<Attribute>, i: int)
    requires 0 <= i < |attrs|
  {
    forall j :: i < j < |attrs| ==> attrs[j].name != attrs[i].name
  }

  /** `get_key_details`: every attribute written, in enumeration order,
      into an initially empty map. */
  function KeyDetails(attrs: seq<Attribute>): (d: Record)
    decreases |attrs|
  {
    if |attrs| == 0 then map[]
    else
      var last := attrs[|attrs| - 1];
      KeyDetails(attrs[..|attrs| - 1])[last.name := last.value]
  }

  /** The flattening's keys are exactly the attribute names, and each name
      maps to the value of its last occurrence: a later duplicate name
      overwrites an earlier one. */
  lemma {:induction false} KeyDetailsContents(attrs: seq<Attribute>)
    ensures KeyDetails(attrs).Keys == Names(attrs)
    ensures forall i :: 0 <= i < |attrs| && IsLastOccurrence(attrs, i) ==>
              KeyDetails(attrs)[attrs[i].name] == attrs[i].value
    decreases |attrs|
  {
    if |attrs| > 0 {
      var prefix := attrs[..|attrs| - 1];
      KeyDetailsContents(prefix);
      OverwriteLast(attrs, KeyDetails(prefix));
    }
  }

  /** Writing the last attribute over the flattening of the others gives a
      map with the flattener's contract. */
  lemma OverwriteLast(attrs: seq<Attribute>, d: Record)
    requires |attrs| > 0
    requires d.Keys == Names(attrs[..|attrs| - 1])
    requires forall i :: 0 <= i < |attrs| - 1 && IsLastOccurrence(attrs[..|attrs| - 1], i) ==>
               d[attrs[i].name] == attrs[i].value
    ensures var last := attrs[|attrs| - 1];
            var m := d[last.name := last.value];
            && m.Keys == Names(attrs)
            && forall i :: 0 <= i < |attrs| && IsLastOccurrence(attrs, i) ==>
                 m[attrs[i].name] == attrs[i].value
  {
    var prefix := attrs[..|attrs| - 1];
    var last := attrs[|attrs| - 1];
    var m := d[last.name := last.value];
    assert Names(attrs) == Names(prefix) + {last.name} by {
      assert forall i :: 0 <= i < |prefix| ==> prefix[i] == attrs[i];
      assert attrs == prefix + [last];
    }
    forall i | 0 <= i < |attrs| && IsLastOccurrence(attrs, i)
      ensures m[attrs[i].name] == attrs[i].value
    {
      if i < |prefix| {
        assert attrs[i].name != last.name;
        assert IsLastOccurrence(prefix, i);
      }
    }
  }

  /** Every name among `attrs` has a last occurrence. */
  lemma {:induction false} LastOccurrenceExists(attrs: seq<Attribute>, i: int)
    requires 0 <= i < |attrs|
    ensures exists j :: i <= j < |attrs| && attrs[j].name == attrs[i].name && IsLastOccurrence(attrs, j)
    decreases |attrs| - i
  {
    if !IsLastOccurrence(attrs, i) {
      var j :| i < j < |attrs| && attrs[j].name == attrs[i].name;
      LastOccurrenceExists(attrs, j);
    }
  }

  /** The contract of `KeyDetails` pins the map down: any map with the
      attribute names as keys and last-occurrence values is that map. */
  lemma KeyDetailsUnique(attrs: seq<Attribute>, m: Record)
    requires m.Keys == Names(attrs)
    requires forall i :: 0 <= i < |attrs| && IsLastOccurrence(attrs, i) ==>
               m[attrs[i].name] == attrs[i].value
    ensures m == KeyDetails(attrs)
  {
    KeyDetailsContents(attrs);
    var d := KeyDetails(attrs);
    forall k | k in m
      ensures m[k] == d[k]
    {
      var i :| 0 <= i < |attrs| && attrs[i].name == k;
      LastOccurrenceExists(attrs, i);
    }
  }

  /** The loop of `get_key_details` (lines 90-96): start from an empty map
      and store every value under its name, in enumeration order. */
  method GetKeyDetails(key: AppKey) returns (details: Record)
    ensures details == KeyDetails(key.attributes)
    ensures details.Keys == Names(key.attributes)
    ensures forall i :: 0 <= i < |key.attributes| && IsLastOccurrence(key.attributes, i) ==>
              details[key.attributes[i].name] == key.attributes[i].value
  {
    var attrs := key.attributes;
    details := map[];
    var i := 0;
    while i < |attrs|
      invariant 0 <= i <= |attrs|
      invariant details == KeyDetails(attrs[..i])
    {
      assert attrs[..i + 1][..i] == attrs[..i];
      details := details[attrs[i].name := attrs[i].value];
      i := i + 1;
    }
    assert attrs[..i] == attrs;
    KeyDetailsContents(attrs);
  }
}

=== FILE: search.dfy ===
/** The walk and filter of `search_hive`: every value of every child key
    under one uninstall path is examined, and each value named DisplayName
    whose data fuzzily matches the guess contributes the flattened
    attributes of its key. */
module HiveSearch {
  import opened Text
  import opened Matching
  import opened Registry

  /** The condition of line 76: the value's lowered, stripped name is
      "displayname" and its data fuzzily matches the guess. */
  predicate IsHit(guess: string, a: Attribute) {
    Normalize(a.name) == "displayname" && FuzzyMatch(guess, a.value)
  }

  /** `search_hive`'s value test for a fixed guess. */
  function HitTest(guess: string): (hit: Attribute -> bool) {
    a => IsHit(guess, a)
  }

  /** Some value among the first `n` of `key` passes `hit`. */
  ghost predicate HitBefore(hit: Attribute -> bool, key: AppKey, n: int) {
    exists j :: 0 <= j < n && j < |key.attributes| && hit(key.attributes[j])
  }

  ghost predicate HasHit(hit: Attribute -> bool, key: AppKey) {
    HitBefore(hit, key, |key.attributes|)
  }

  /** `d` is the flattening of some child key of `tree` with a value that
      passes `hit`. */
  ghost predicate FromHitChild(hit: Attribute -> bool, tree: Subtree, d: Record) {
    exists i :: 0 <= i < |tree| && HasHit(hit, tree[i]) && d == KeyDetails(tree[i].attributes)
  }

  /** The records that the first `n` values of one child key contribute:
      one copy of the key's flattening per value that passes `hit`. */
  function KeyMatches(hit: Attribute -> bool, key: AppKey, n: nat): (r: seq<Record>)
    requires n <= |key.attributes|
    ensures forall k :: 0 <= k < |r| ==> r[k] == KeyDetails(key.attributes)
    ensures |r| > 0 <==> HitBefore(hit, key, n)
    decreases n
  {
    if n == 0 then []
    else
      var earlier := KeyMatches(hit, key, n - 1);
      if hit(key.attributes[n - 1]) then earlier + [KeyDetails(key.attributes)]
      else
        assert HitBefore(hit, key, n) ==> HitBefore(hit, key, n - 1);
        earlier
  }

  lemma KeyMatchesStep(hit: Attribute -> bool, key: AppKey, n: nat)
    requires n < |key.attributes|
    ensures KeyMatches(hit, key, n + 1) ==
              KeyMatches(hit, key, n) + if hit(key.attributes[n]) then [KeyDetails(key.attributes)] else []
  {
  }

  /** The nested loops of `search_hive` with the value test left open: the
      matches of the child keys, concatenated in enumeration order. A record
      is in the result exactly when it is the flattening of a child key with
      a value that passes the test. */
  function Collect(hit: Attribute -> bool, tree: Subtree): (r: seq<Record>)
    ensures forall d :: d in r <==> FromHitChild(hit, tree, d)
    decreases |tree|
  {
    if |tree| == 0 then []
    else
      var prefix := tree[..|tree| - 1];
      var key := tree[|tree| - 1];
      var earlier := Collect(hit, prefix);
      var here := KeyMatches(hit, key, |key.attributes|);
      CollectStep(hit, tree, earlier, here);
      earlier + here
  }

  lemma CollectStep(hit: Attribute -> bool, tree: Subtree, earlier: seq<Record>, here: seq<Record>)
    requires |tree| > 0
    requires forall d :: d in earlier <==> FromHitChild(hit, tree[..|tree| - 1], d)
    requires here == KeyMatches(hit, tree[|tree| - 1], |tree[|tree| - 1].attributes|)
    ensures forall d :: d in earlier + here <==> FromHitChild(hit, tree, d)
  {
    var prefix := tree[..|tree| - 1];
    var key := tree[|tree| - 1];
    forall d | FromHitChild(hit, tree, d)
      ensures d in earlier + here
    {
      var i :| 0 <= i < |tree| && HasHit(hit, tree[i]) && d == KeyDetails(tree[i].attributes);
      if i < |prefix| {
        assert prefix[i] == tree[i];
        assert FromHitChild(hit, prefix, d);
      } else {
        assert here[0] == d;
      }
    }
    forall d | d in earlier + here
      ensures FromHitChild(hit, tree, d)
    {
      if d in earlier {
        var i :| 0 <= i < |prefix| && HasHit(hit, prefix[i]) && d == KeyDetails(prefix[i].attributes);
        assert tree[i] == prefix[i];
      } else {
        assert HasHit(hit, tree[|tree| - 1]);
      }
    }
  }

  /** A subtree with one child key yields that key's matches. */
  lemma CollectOfOneKey(hit: Attribute -> bool, key: AppKey)
    ensures Collect(hit, [key]) == KeyMatches(hit, key, |key.attributes|)
  {
    assert [key][..0] == [];
  }

  /** `search_hive` on one subtree. A record is in the result exactly when
      it is the flattening of a child key that has a value named
      DisplayName whose data fuzzily matches the guess. */
  function SearchHive(guess: string, tree: Subtree): (r: seq<Record>)
    ensures forall d :: d in r <==> FromHitChild(HitTest(guess), tree, d)
  {
    Collect(HitTest(guess), tree)
  }

  /** The inner loop of `search_hive` (lines 70-77): for each value of one
      child key in order, append the key's flattening when the value passes
      the test (`WalkHive` passes the line-76 condition). */
  method MatchKey(hit: Attribute -> bool, key: AppKey) returns (found: seq<Record>)
    ensures found == KeyMatches(hit, key, |key.attributes|)
  {
    found := [];
    var n := 0;
    while n < |key.attributes|
      invariant 0 <= n <= |key.attributes|
      invariant found == KeyMatches(hit, key, n)
    {
      KeyMatchesStep(hit, key, n);
      if hit(key.attributes[n]) {
        var details := GetKeyDetails(key);
        found := found + [details];
      }
      n := n + 1;
    }
  }

  /** The loops of `search_hive` (lines 62-78): every child key in
      enumeration order contributes its matches. */
  method WalkHive(guess: string, tree: Subtree) returns (matches: seq<Record>)
    ensures matches == SearchHive(guess, tree)
  {
    matches := [];
    var c := 0;
    while c < |tree|
      invariant 0 <= c <= |tree|
      invariant matches == Collect(HitTest(guess), tree[..c])
    {
      var found := MatchKey(HitTest(guess), tree[c]);
      assert tree[..c + 1][..c] == tree[..c];
      matches := matches + found;
      c := c + 1;
    }
    assert tree[..c] == tree;
  }

  /** Results of earlier child keys come before those of later ones. */
  lemma {:induction false} CollectAppend(hit: Attribute -> bool, t1: Subtree, t2: Subtree)
    ensures Collect(hit, t1 + t2) == Collect(hit, t1) + Collect(hit, t2)
    decreases |t2|
  {
    if |t2| > 0 {
      var t2' := t2[..|t2| - 1];
      assert (t1 + t2)[..|t1 + t2| - 1] == t1 + t2';
      CollectAppend(hit, t1, t2');
    } else {
      assert t1 + t2 == t1;
    }
  }

  /** Searching two runs of child keys one after the other is searching
      them together: the records keep the child keys' enumeration order. */
  lemma SearchHiveAppend(guess: string, t1: Subtree, t2: Subtree)
    ensures SearchHive(guess, t1 + t2) == SearchHive(guess, t1) + SearchHive(guess, t2)
  {
    CollectAppend(HitTest(guess), t1, t2);
  }

  /** One step of the walk: a child key and one of its values. */
  datatype Visit = Visit(key: AppKey, attribute: Attribute)

  /** The (child key, value) pairs of one key in enumeration order. */
  function KeyVisits(key: AppKey): (vs: seq<Visit>)
    ensures |vs| == |key.attributes|
    ensures forall j :: 0 <= j < |vs| ==> vs[j] == Visit(key, key.attributes[j])
  {
    seq(|key.attributes|, j requires 0 <= j < |key.attributes| => Visit(key, key.attributes[j]))
  }

  /** Every (child key, value) pair of a subtree, child by child and value
      by value: the order in which the nested loops examine them. */
  function Visits(tree: Subtree): (vs: seq<Visit>)
    decreases |tree|
  {
    if |tree| == 0 then [] else Visits(tree[..|tree| - 1]) + KeyVisits(tree[|tree| - 1])
  }

  /** The visits whose value passes `hit`, in their original order. */
  function HitVisits(hit: Attribute -> bool, vs: seq<Visit>): (r: seq<Visit>)
    ensures forall v :: v in r <==> v in vs && hit(v.attribute)
    decreases |vs|
  {
    if |vs| == 0 then []
    else
      var last := vs[|vs| - 1];
      var earlier := HitVisits(hit, vs[..|vs| - 1]);
      assert vs == vs[..|vs| - 1] + [last];
      if hit(last.attribute) then earlier + [last] else earlier
  }

  /** The record each visit yields: the flattening of its key. */
  function RecordsOf(vs: seq<Visit>): (r: seq<Record>)
    ensures |r| == |vs|
    ensures forall k :: 0 <= k < |vs| ==> r[k] == KeyDetails(vs[k].key.attributes)
  {
    seq(|vs|, k requires 0 <= k < |vs| => KeyDetails(vs[k].key.attributes))
  }

  lemma {:induction false} HitVisitsAppend(hit: Attribute -> bool, a: seq<Visit>, b: seq<Visit>)
    ensures HitVisits(hit, a + b) == HitVisits(hit, a) + HitVisits(hit, b)
    decreases |b|
  {
    if |b| > 0 {
      var b' := b[..|b| - 1];
      assert (a + b)[..|a + b| - 1] == a + b';
      HitVisitsAppend(hit, a, b');
    } else {
      assert a + b == a;
    }
  }

  lemma HitVisitsSnoc(hit: Attribute -> bool, vs: seq<Visit>, v: Visit)
    ensures HitVisits(hit, vs + [v]) == HitVisits(hit, vs) + (if hit(v.attribute) then [v] else [])
  {
    assert (vs + [v])[..|vs|] == vs;
  }

  lemma RecordsOfSnoc(vs: seq<Visit>, v: Visit)
    ensures RecordsOf(vs + [v]) == RecordsOf(vs) + [KeyDetails(v.key.attributes)]
  {
  }

  lemma RecordsOfAppend(a: seq<Visit>, b: seq<Visit>)
    ensures RecordsOf(a + b) == RecordsOf(a) + RecordsOf(b)
  {
  }

  lemma {:induction false} KeyMatchesAreFilteredVisits(hit: Attribute -> bool, key: AppKey, n: nat)
    requires n <= |key.attributes|
    ensures KeyMatches(hit, key, n) == RecordsOf(HitVisits(hit, KeyVisits(key)[..n]))
    decreases n
  {
    if n > 0 {
      KeyMatchesAreFilteredVisits(hit, key, n - 1);
      var vs := KeyVisits(key);
      var v := vs[n - 1];
      var earlier := HitVisits(hit, vs[..n - 1]);
      assert HitVisits(hit, vs[..n]) == earlier + (if hit(v.attribute) then [v] else []) by {
        assert vs[..n] == vs[..n - 1] + [v];
        HitVisitsSnoc(hit, vs[..n - 1], v);
      }
      KeyMatchesStep(hit, key, n - 1);
      if hit(v.attribute) {
        RecordsOfSnoc(earlier, v);
      } else {
        assert earlier + [] == earlier;
        assert KeyMatches(hit, key, n - 1) + [] == KeyMatches(hit, key, n - 1);
      }
    }
  }

  lemma {:induction false} CollectIsFilteredWalk(hit: Attribute -> bool, tree: Subtree)
    ensures Collect(hit, tree) == RecordsOf(HitVisits(hit, Visits(tree)))
    decreases |tree|
  {
    if |tree| > 0 {
      var prefix := tree[..|tree| - 1];
      var key := tree[|tree| - 1];
      CollectIsFilteredWalk(hit, prefix);
      KeyMatchesAreFilteredVisits(hit, key, |key.attributes|);
      assert KeyVisits(key)[..|key.attributes|] == KeyVisits(key);
      HitVisitsAppend(hit, Visits(prefix), KeyVisits(key));
      RecordsOfAppend(HitVisits(hit, Visits(prefix)), HitVisits(hit, KeyVisits(key)));
    }
  }

  /** `search_hive` is the walk over every (child key, value) pair in
      enumeration order, filtered by the line-76 condition, each surviving
      pair yielding its key's flattening. So the result holds one record
      per hit, ordered by child key and then by value, and a key with
      several hits appears several times. */
  lemma SearchHiveIsFilteredWalk(guess: string, tree: Subtree)
    ensures SearchHive(guess, tree) == RecordsOf(HitVisits(HitTest(guess), Visits(tree)))
    ensures |SearchHive(guess, tree)| == |HitVisits(HitTest(guess), Visits(tree))|
  {
    CollectIsFilteredWalk(HitTest(guess), tree);
  }

  /** A value whose name normalises to "displayname". */
  ghost predicate HasDisplayName(key: AppKey) {
    exists j :: 0 <= j < |key.attributes| && Normalize(key.attributes[j].name) == "displayname"
  }

  /** A guess that normalises to the empty string matches every name, so
      the result holds the flattening of exactly those child keys that have
      a DisplayName value. */
  lemma EmptyGuessFindsEveryDisplayName(guess: string, tree: Subtree)
    requires Normalize(guess) == []
    ensures forall d :: d in SearchHive(guess, tree) <==>
              exists i :: 0 <= i < |tree| && HasDisplayName(tree[i]) && d == KeyDetails(tree[i].attributes)
  {
    forall i | 0 <= i < |tree|
      ensures HasHit(HitTest(guess), tree[i]) <==> HasDisplayName(tree[i])
    {
      if HasDisplayName(tree[i]) {
        var j :| 0 <= j < |tree[i].attributes| && Normalize(tree[i].attributes[j].name) == "displayname";
        FuzzyMatchEmpty(guess, tree[i].attributes[j].value);
        assert HitTest(guess)(tree[i].attributes[j]);
      }
    }
  }
}

=== FILE: text.dfy ===
/**
 The ASCII part of Python's `str.lower()`, `str.strip()` and the `in`
 operator on strings, as used by the normaliser of the registry search
 (`x.lower().strip()`). Characters outside ASCII are left unchanged by
 `Lower` and are never stripped by `Strip`.
 */
module Text {

  /** The ASCII characters Python's `str.isspace()` accepts: tab, line feed,
      vertical tab, form feed, carriage return, the four separators
      0x1C..0x1F and the space. */
  predicate IsSpace(c: char) {
    ('\t' <= c <= '\r') || ('\U{1C}' <= c <= '\U{1F}') || c == ' '
  }

  predicate IsUpper(c: char) {
    'A' <= c <= 'Z'
  }

  /** One character through ASCII `str.lower()`: an upper-case letter
      becomes the letter 32 code points later, its lower-case partner. */
  function LowerChar(c: char): (d: char)
    ensures !IsUpper(d)
    ensures IsSpace(d) <==> IsSpace(c)
    ensures IsUpper(c) ==> 'a' <= d <= 'z' && d as int == c as int + 32
    ensures !IsUpper(c) ==> d == c
  {
    if IsUpper(c) then (c as int + 32) as char else c
  }

  /** True when no character of `s` is an upper-case ASCII letter. */
  predicate IsLowerCase(s: string) {
    forall i :: 0 <= i < |s| ==> !IsUpper(s[i])
  }

  /** ASCII `str.lower()`: the same string, character by character, with
      every upper-case ASCII letter replaced by its lower-case partner. */
  function Lower(s: string): (r: string)
    ensures |r| == |s|
    ensures IsLowerCase(r)
  {
    seq(|s|, i requires 0 <= i < |s| => LowerChar(s[i]))
  }

  /** Character by character, lowering turns each upper-case ASCII letter
      into its lower-case partner, 32 code points later, and leaves every
      other character unchanged. */
  lemma LowerMeaning(s: string)
    ensures forall i :: 0 <= i < |s| ==>
              (IsUpper(s[i]) ==> Lower(s)[i] as int == s[i] as int + 32) &&
              (!IsUpper(s[i]) ==> Lower(s)[i] == s[i])
  {
  }

  /** Lowering a string that has no upper-case letter changes nothing. */
  lemma LowerOfLowerCase(s: string)
    requires IsLowerCase(s)
    ensures Lower(s) == s
  {
  }

  lemma LowerIdempotent(s: string)
    ensures Lower(Lower(s)) == Lower(s)
  {
    LowerOfLowerCase(Lower(s));
  }

  /** The first index at or after `i` that does not hold whitespace, or
      `|s|` when there is none. */
  function SkipSpaces(s: string, i: nat): (k: nat)
    requires i <= |s|
    ensures i <= k <= |s|
    ensures forall m :: i <= m < k ==> IsSpace(s[m])
    ensures k < |s| ==> !IsSpace(s[k])
    decreases |s| - i
  {
    if i < |s| && IsSpace(s[i]) then SkipSpaces(s, i + 1) else i
  }

  /** Scanning back from `j`, the end of the last run of non-whitespace
      that starts at or after `lo`, or `lo` when there is none. */
  function SkipSpacesBack(s: string, lo: nat, j: nat): (k: nat)
    requires lo <= j <= |s|
    ensures lo <= k <= j
    ensures forall m :: k <= m < j ==> IsSpace(s[m])
    ensures k > lo ==> !IsSpace(s[k - 1])
    decreases j - lo
  {
    if j > lo && IsSpace(s[j - 1]) then SkipSpacesBack(s, lo, j - 1) else j
  }

  /** `s[i..j]` is what stripping `s` keeps: everything before `i` and from
      `j` on is whitespace, and the kept part neither starts nor ends with
      whitespace. */
  ghost predicate StrippedAt(s: string, i: int, j: int) {
    && 0 <= i <= j <= |s|
    && (forall m :: 0 <= m < i ==> IsSpace(s[m]))
    && (forall m :: j <= m < |s| ==> IsSpace(s[m]))
    && (i < j ==> !IsSpace(s[i]) && !IsSpace(s[j - 1]))
  }

  /** ASCII `str.strip()`: skip whitespace from the left, then from the
      right down to where the left scan stopped. */
  function Strip(s: string): (r: string)
    ensures exists i, j :: StrippedAt(s, i, j) && r == s[i..j]
    ensures |r| > 0 ==> !IsSpace(r[0]) && !IsSpace(r[|r| - 1])
  {
    var i := SkipSpaces(s, 0);
    var j := SkipSpacesBack(s, i, |s|);
    assert StrippedAt(s, i, j);
    s[i..j]
  }

  /** Stripping a string that neither starts nor ends with whitespace
      changes nothing. */
  lemma StripOfTrimmed(s: string)
    requires |s| > 0 ==> !IsSpace(s[0]) && !IsSpace(s[|s| - 1])
    ensures Strip(s) == s
  {
  }

  lemma StripIdempotent(s: string)
    ensures Strip(Strip(s)) == Strip(s)
  {
    StripOfTrimmed(Strip(s));
  }

  /** Lowering keeps each character's whitespace status, so both scans of
      `Strip` stop at the same indices on `Lower(s)` as on `s`. */
  lemma {:induction false} SkipSpacesOfLower(s: string, i: nat)
    requires i <= |s|
    ensures SkipSpaces(Lower(s), i) == SkipSpaces(s, i)
    decreases |s| - i
  {
    if i < |s| && IsSpace(s[i]) {
      SkipSpacesOfLower(s, i + 1);
    }
  }

  lemma {:induction false} SkipSpacesBackOfLower(s: string, lo: nat, j: nat)
    requires lo <= j <= |s|
    ensures SkipSpacesBack(Lower(s), lo, j) == SkipSpacesBack(s, lo, j)
    decreases j - lo
  {
    if j > lo && IsSpace(s[j - 1]) {
      SkipSpacesBackOfLower(s, lo, j - 1);
    }
  }

  /** Lowering and stripping commute. */
  lemma StripLowerCommute(s: string)
    ensures Strip(Lower(s)) == Lower(Strip(s))
  {
    var i := SkipSpaces(s, 0);
    SkipSpacesOfLower(s, 0);
    SkipSpacesBackOfLower(s, i, |s|);
    var j := SkipSpacesBack(s, i, |s|);
    LowerSlice(s, i, j);
  }

  /** Lowering works character by character, so it commutes with slicing. */
  lemma LowerSlice(s: string, i: int, j: int)
    requires 0 <= i <= j <= |s|
    ensures Lower(s)[i..j] == Lower(s[i..j])
  {
  }

  /** The normaliser of the registry search: `x.lower().strip()`. */
  function Normalize(s: string): (r: string) {
    Strip(Lower(s))
  }

  /** The normal form is `s` with its surrounding whitespace removed and
      every ASCII letter in lower case; it neither starts nor ends with
      whitespace. */
  lemma NormalizeMeaning(s: string)
    ensures Normalize(s) == Lower(Strip(s))
    ensures IsLowerCase(Normalize(s))
    ensures |Normalize(s)| > 0 ==> !IsSpace(Normalize(s)[0]) && !IsSpace(Normalize(s)[|Normalize(s)| - 1])
  {
    StripLowerCommute(s);
  }

  /** Normalising twice is normalising once. */
  lemma NormalizeIdempotent(s: string)
    ensures Normalize(Normalize(s)) == Normalize(s)
  {
    var n := Normalize(s);
    NormalizeMeaning(s);
    LowerOfLowerCase(n);
    StripOfTrimmed(n);
  }

  /** Conversely, a lower-case string without surrounding whitespace is its
      own normal form. */
  lemma NormalizeOfNormalForm(s: string)
    requires IsLowerCase(s)
    requires |s| > 0 ==> !IsSpace(s[0]) && !IsSpace(s[|s| - 1])
    ensures Normalize(s) == s
  {
    LowerOfLowerCase(s);
    StripOfTrimmed(s);
  }

  /** `t` is a prefix of `s`. */
  predicate IsPrefix(t: string, s: string) {
    |t| <= |s| && s[..|t|] == t
  }

  /** Python's `t in s` on strings: some slice of `s` equals `t`. */
  predicate Contains(s: string, t: string)
    decreases |s|
  {
    IsPrefix(t, s) || (|s| > 0 && Contains(s[1..], t))
  }

  /** `t` occurs in `s` starting at index `i`. */
  ghost predicate OccursAt(t: string, s: string, i: int) {
    0 <= i <= |s| - |t| && s[i..i + |t|] == t
  }

  /** `t` is a contiguous slice of `s`. */
  ghost predicate IsSubstring(t: string, s: string) {
    exists i :: OccursAt(t, s, i)
  }

  /** The scan `Contains` finds `t` exactly when `t` occurs somewhere in `s`. */
  lemma {:induction false} ContainsIffSubstring(s: string, t: string)
    ensures Contains(s, t) <==> IsSubstring(t, s)
    decreases |s|
  {
    if IsPrefix(t, s) {
      assert OccursAt(t, s, 0);
    } else if |s| == 0 {
      assert forall i :: !OccursAt(t, s, i);
    } else {
      ContainsIffSubstring(s[1..], t);
      if IsSubstring(t, s) {
        var i :| OccursAt(t, s, i);
        assert i != 0;
        assert s[1..][i - 1..i - 1 + |t|] == s[i..i + |t|];
        assert OccursAt(t, s[1..], i - 1);
      }
      if IsSubstring(t, s[1..]) {
        var i :| OccursAt(t, s[1..], i);
        assert s[1..][i..i + |t|] == s[i + 1..i + 1 + |t|];
        assert OccursAt(t, s, i + 1);
      }
    }
  }

  /** A character of `t` that `s` lacks keeps `t` out of `s`. */
  lemma MissingCharNotSubstring(t: string, s: string, c: char)
    requires c in t && c !in s
    ensures !IsSubstring(t, s)
  {
  }
}
